=== FILE: README.md ===
# FLAC decode session of PyOgg's `FlacFile`, in Dafny

This project models how `FlacFile` drives a decode. It runs the libFLAC stream decoder and
collects the decoded audio into one buffer of interleaved 16-bit samples. Three callbacks share
the session state:

- the metadata callback reads the STREAMINFO block (section 8.2 of RFC 9639) and allocates the
  buffer;
- the write callback interleaves each decoded frame into the buffer at a running cursor;
- the error callback raises to abort the session (see "## Left out").

The constructor opens the file, then runs the metadata pass, then the stream pass. Only if all
three succeed does it freeze the buffer to bytes.

Modules:

- `Wrappers` (`wrappers.dfy`): `Option` and `Result`.
- `Samples` (`samples.dfy`): the `int16` sample type and the conversion of the buffer to bytes
  (two bytes per sample, low byte first), with both round trips.
- `Interleaving` (`interleaving.dfy`): the transpose of per-channel planes into time-major
  order, as `chain.from_iterable(zip(*planes))` computes it. Also here: the transpose law, its uniqueness,
  de-interleaving with both round trips, a loop version, and the slice write.
- `FlacSession` (`session.dfy`): the session state and the three callbacks as pure transitions.
  It also holds `Run` (one decoder pass as a fold over callback events), the driver `OpenFlac`,
  and the shape arithmetic of `as_array`.
- `SessionProperties` (`session_properties.dfy`): lemmas relating several callbacks or whole
  runs.

The libFLAC engine is not modelled. An `Engine` value stands for one run of it: the status
returned by `init_file`, the callback events each pass delivers, and the boolean each pass
returns.

Points where the code behaves differently from what a caller might expect. The model follows
the code in each case:

- The guard `if not self.buffer` also treats an allocated but empty buffer as "not allocated".
  So when the first STREAMINFO declares zero samples (or zero channels), the next metadata event
  replaces the geometry and the buffer (`SessionProperties.EmptyAllocationReplaced`). Only a
  non-empty buffer makes later metadata events no-ops.
- The metadata callback never resets the cursor. Only `__init__` sets it to 0. This makes no
  observable difference, because a buffer can only be reallocated while the cursor is still 0.
- There is no bounds check on writes. A frame that does not fit the fixed-size ctypes buffer makes
  the slice assignment raise. A frame that arrives before any buffer exists raises before the
  write, when `_resize_array` is given `None` as the channel count. The model turns both into a
  `WriteRejected` failure that aborts the session.
- Nothing checks that the frames fill the buffer. A run whose frames carry fewer samples than
  STREAMINFO declares still succeeds, with the rest of the buffer left at zero
  (`SessionProperties.UnderfilledSucceeds`).
- `bytes(self.buffer)` with no buffer at all raises a `TypeError`. The model reports this as
  `NoStreamInfo`.

## Model

| member | source | states |
|---|---|---|
| FlacSession.OnMetadata | pyogg/flac_file.py:38-44 | With no non-empty buffer yet: geometry comes from the STREAMINFO record, the buffer is all zeros with `totalSamples * channels` slots, and the cursor is kept. Otherwise the session is returned unchanged. |
| FlacSession.FrameSamples | pyogg/flac_file.py:20-34 | The block a frame contributes obeys the transpose law for any channel count. For one channel it is the plane's first `blocksize` samples. |
| FlacSession.OnFrame | pyogg/flac_file.py:18-36 | Without a buffer the write raises (`NoBuffer`). With a buffer it succeeds exactly when the window fits, and otherwise raises `WindowMismatch`. On success: status 0, same geometry and length, window transposed at the old cursor, every slot outside the window unchanged, cursor advanced by `channels * blocksize`. |
| FlacSession.Run | pyogg/flac_file.py:18-47 | A completed pass keeps the session invariant (buffer sized by geometry, cursor inside it). It moves the cursor by exactly the total size of its frames. A failed pass fails only with a decode fault or a rejected write. |
| FlacSession.Freeze | pyogg/flac_file.py:96-102 | The frozen buffer reads back as the sample buffer. Its length is 2 bytes per sample, `bytes_per_sample` is 2, and the geometry is carried over. |
| FlacSession.OpenFlac | pyogg/flac_file.py:49-102 | A nonzero open status gives `OpenError` with that status. After a successful open, a metadata pass that went through but reports failure gives `MetadataError`. After that, a stream pass that went through but reports failure gives `StreamError`. Success implies open, metadata pass and stream pass all succeeded, `bytes_per_sample == 2` and `buffer_length == 2 * total_samples * channels`. |
| FlacSession.ArrayShape | pyogg/flac_file.py:126-130 | The shape exists exactly when neither divisor is zero. Its second extent is `channels`. Its first extent is the floor of `buffer_length / (bytes_per_sample * channels)`: that many rows fit in the buffer and one more would not. |
| Samples.ToBytes | pyogg/flac_file.py:97 | The byte form has two bytes per sample, each sample's low and high byte at `2i` and `2i+1`. |
| Samples.FromBytes | pyogg/flac_file.py:120-123 | Reading bytes back gives one sample per byte pair, decoded from that pair. |
| Samples.ToBytesRoundTrip | pyogg/flac_file.py:97 | Reading the frozen bytes back gives exactly the sample buffer. |
| Samples.FromBytesRoundTrip | pyogg/flac_file.py:120-123 | Every even-length byte buffer is the frozen form of the samples it reads as. |
| Samples.SampleRoundTrip | pyogg/flac_file.py:97 | The two-byte form of a 16-bit sample decodes back to that sample. |
| Samples.BytesRoundTrip | pyogg/flac_file.py:120-123 | Every pair of bytes is the two-byte form of the sample it decodes to. |
| Interleaving.Interleave | pyogg/flac_file.py:27 | The flattened zip of `C` planes over `n` time steps has `C * n` samples. |
| Interleaving.InterleaveSlot | pyogg/flac_file.py:27 | Channel `c`'s sample at time `t` sits at slot `t * C + c`, inside the block. |
| Interleaving.TransposeLaw | pyogg/flac_file.py:21-29 | Transpose law for the whole block: `out[t*C + c] == plane[c][t]` for every `t < n` and `c < C`. |
| Interleaving.TransposeUnique | pyogg/flac_file.py:27 | Any sequence obeying the transpose law is the interleaving, so the law characterises it exactly. |
| Interleaving.InterleaveRoundTrip | pyogg/flac_file.py:22-27 | De-interleaving an interleaved frame gives back its planes. |
| Interleaving.DeinterleaveRoundTrip | pyogg/flac_file.py:22-27 | Interleaving the planes read out of a block gives back the block. |
| Interleaving.MonoIsCopy | pyogg/flac_file.py:32-34 | For one channel the interleaving is the plane's first `n` samples, so the mono branch agrees with the general one. |
| Interleaving.InterleaveFrame | pyogg/flac_file.py:22-27 | The per-time-step, per-channel loop computes the interleaving and satisfies the transpose law. |
| Interleaving.WriteWindow | pyogg/flac_file.py:29 | Slice assignment keeps the length, puts the block in the window, and leaves every other slot unchanged. |
| SessionProperties.SecondMetadataIgnored | pyogg/flac_file.py:39 | Once a non-empty buffer exists, another metadata event changes nothing: buffer, geometry and cursor all stay. |
| SessionProperties.EmptyAllocationReplaced | pyogg/flac_file.py:39-44 | An allocation of zero slots is not "allocated": the next metadata event acts as if the first had not happened. |
| SessionProperties.MonoFrameCopies | pyogg/flac_file.py:32-35 | A one-channel frame is copied verbatim at the cursor, and the cursor advances by the blocksize. |
| SessionProperties.DecodeErrorAbortsPass | pyogg/flac_file.py:46-47 | A decoder error anywhere in a pass makes the pass fail. |
| SessionProperties.RunAppend | pyogg/flac_file.py:18-47 | Running a pass in two parts is running it whole: the second part starts from the state the first left, and a failure in the first part is the failure of the whole. |
| SessionProperties.DecodeErrorCarriesStatus | pyogg/flac_file.py:46-47 | A decode error after events that went through ends the pass with a fault carrying the status the decoder reported. |
| SessionProperties.FrameSplice | pyogg/flac_file.py:27-30 | A successful write leaves the old buffer with the frame's block spliced in at the cursor. |
| SessionProperties.RunWritesBlocks | pyogg/flac_file.py:18-44 | On a non-empty buffer, a pass with no decode error whose frames fit from the cursor completes and keeps the geometry. Its buffer is the old one with the blocks of all its frames, in order, spliced in at the old cursor. Metadata events in it change nothing. |
| SessionProperties.CursorAccounting | pyogg/flac_file.py:29-35 | From a fresh session, a completed pass leaves the cursor at the total size of its frames, inside the buffer. |
| SessionProperties.CursorMonotone | pyogg/flac_file.py:30 | The cursor never decreases across a pass. |
| SessionProperties.ExactFill | pyogg/flac_file.py:42 | If the frames carry exactly the declared number of samples, the final cursor is at the end of the buffer. |
| SessionProperties.OpenFailureSkipsPasses | pyogg/flac_file.py:83-84 | A failed open decides the outcome whatever the passes would deliver. |
| SessionProperties.MetadataFailureSkipsStream | pyogg/flac_file.py:86-88 | A failed metadata pass fails the session, and the stream pass's events and status do not matter. |
| SessionProperties.StreamFailureDiscardsBuffer | pyogg/flac_file.py:90-92 | A failed stream pass never yields a buffer. |
| SessionProperties.DecodeErrorAbortsSession | pyogg/flac_file.py:46-47 | A decoder error in either pass makes the session fail. |
| SessionProperties.MetadataDecodeErrorStatus | pyogg/flac_file.py:46-47 | After a successful open, a decode error in the metadata pass ends the session with a fault carrying the reported status, provided the events before it went through. |
| SessionProperties.StreamDecodeErrorStatus | pyogg/flac_file.py:46-47 | After a successful open and metadata pass, a decode error in the stream pass ends the session with a fault carrying the reported status, provided the stream events before it went through. |
| SessionProperties.SuccessIsFrozenFinalState | pyogg/flac_file.py:94-100 | On success both passes completed. The output bytes read back as the final sample buffer, which has `total_samples * channels` slots. |
| SessionProperties.SuccessConverse | pyogg/flac_file.py:83-102 | When the open status is 0, both passes report success, neither raised and a buffer exists, the session returns exactly that final buffer, frozen. |
| SessionProperties.UnderfilledSucceeds | pyogg/flac_file.py:39-44 | A stream that declares samples but delivers no frame still succeeds, with an all-zero buffer of the declared size. |
| SessionProperties.OutputShape | pyogg/flac_file.py:126-130 | For a successful session with channels, the array shape is (`total_samples`, `channels`). |
| SessionProperties.EmptyStream | pyogg/flac_file.py:39-44 | A stream declaring zero samples succeeds with an empty buffer, with channels and sample rate still set. |
| SessionProperties.FillingWrite | pyogg/flac_file.py:29 | A frame that exactly fills the buffer from cursor 0 replaces its contents with the frame's block. |
| SessionProperties.SingleFrameSession | pyogg/flac_file.py:49-102 | One STREAMINFO record plus one frame that fills the buffer produces exactly that frame's block, frozen. |
| SessionProperties.WholeStreamSession | pyogg/flac_file.py:18-102 | One STREAMINFO record followed by any number of frames that together fill the declared buffer yields the frames' blocks, concatenated in order, frozen. For one channel each block is the frame's plane unchanged. |
| SessionProperties.StereoBlock | pyogg/flac_file.py:27 | Two planes of four samples interleave as left, right, left, right, and so on. |
| SessionProperties.StereoScenario | pyogg/flac_file.py:21-30 | End to end, two channels of four samples give the time-major buffer, e.g. [1,10,2,20,3,30,4,40] from [1,2,3,4] and [10,20,30,40]. |
| SessionProperties.MonoScenario | pyogg/flac_file.py:32-35 | End to end, one channel of three samples gives the plane unchanged. |

## Left out

- The libFLAC calls (`FLAC__stream_decoder_new`, `init_file`, `process_until_end_of_metadata`,
  `process_until_end_of_stream`, `finish`) are foreign code. They appear only as the `Engine`
  value: an open status, two event traces and two pass results. Nothing assumes the engine
  respects the calling order, except that frames come with at least one plane of at least
  `blocksize` samples.
- ctypes mechanics (`_to_char_p`, `_resize_array`, casting the raw plane pointers, UTF-8 path
  encoding) are pointer plumbing. Frames are given directly as sequences of planes. A frame with
  more channels than the stream declared is not checked: the source would fail to index the
  resized pointer array.
- Sample narrowing from 32-bit decoder output into the 16-bit buffer is left out. Plane samples
  are taken to be `int16` already.
- Native byte order: the frozen buffer is modelled low byte first, as on little-endian hosts.
- An exception raised inside a ctypes callback (by the write callback's slice assignment or by
  the error callback) is modelled as aborting the session at once, which is evidently what the
  code intends. CPython's ctypes does not do this: it prints an exception that escapes a foreign
  callback and does not propagate it. After an error event, whose callback returns nothing, the
  program as run keeps decoding. After a rejected write the callback's return value is never
  stored, so libFLAC sees an unset write status: the program may keep decoding, or the stream
  pass may stop and fail as `StreamError`. `SessionProperties.DecodeErrorAbortsPass` and
  `SessionProperties.DecodeErrorAbortsSession` describe the intended abort, not that behaviour.
- The model's write rejects exactly when `cursor + size > length`. ctypes also accepts an empty
  write past the end. That case cannot arise, because the cursor never exceeds the buffer length
  (`FlacSession.Run`).
- NumPy in `as_array` is modelled only in part. `frombuffer` appears only as the little-endian
  16-bit decoding `Samples.FromBytes`. `reshape` appears only as its shape arithmetic,
  `FlacSession.ArrayShape`, where a division by zero gives no shape. NumPy's array object, memory
  sharing and size check are left out.
- Error messages and the status-enum name lookups are left out. Failures carry only their kind
  and status code.
- Decoder release: `finish` is called only on success, and the model does not track the decoder
  handle at all.
- Metadata blocks other than STREAMINFO are not modelled. With libFLAC's default settings only
  STREAMINFO reaches the metadata callback.

=== FILE: interleaving.dfy ===
/**
 Interleaving of per-channel sample planes into one time-major sequence: the transpose of a
 (channels x blocksize) matrix into (blocksize x channels) row-major order, as produced by
 flattening `zip(*planes)`, together with the slice write that stores it into a buffer.
 */
module Interleaving {

  /** Every plane holds at least `n` samples, so the first `n` time steps can be read from all. */
  predicate Covers<T>(planes: seq<seq<T>>, n: nat) {
    forall c :: 0 <= c < |planes| ==> n <= |planes[c]|
  }

  /** The samples of all channels at time step `t`, in channel order (one tuple of the zip). */
  function Column<T>(planes: seq<seq<T>>, t: nat): (r: seq<T>)
    requires forall c :: 0 <= c < |planes| ==> t < |planes[c]|
  {
    seq(|planes|, c requires 0 <= c < |planes| => planes[c][t])
  }

  /** The first `n` time steps of `planes`, one column after another. */
  function Interleave<T>(planes: seq<seq<T>>, n: nat): (r: seq<T>)
    requires Covers(planes, n)
    ensures |r| == |planes| * n
    decreases n
  {
    if n == 0 then []
    else
      var prefix := Interleave(planes, n - 1);
      assert |planes| * n == |planes| * (n - 1) + |planes|;
      prefix + Column(planes, n - 1)
  }

  /** Buffer slot of channel `c` at time step `t` in a block `width` channels wide. */
  function Slot(t: nat, c: nat, width: nat): nat {
    t * width + c
  }

  /**
   `out` is the interleaving of the first `n` time steps of `planes`: it has one slot per
   (time step, channel) pair and the sample of channel `c` at time `t` sits at `t * C + c`.
   */
  ghost predicate IsTransposeOf<T>(out: seq<T>, planes: seq<seq<T>>, n: nat)
    requires Covers(planes, n)
  {
    && |out| == |planes| * n
    && forall t, c :: 0 <= t < n && 0 <= c < |planes| ==>
         Slot(t, c, |planes|) < |out| && out[Slot(t, c, |planes|)] == planes[c][t]
  }

  /** Slot arithmetic: a (time, channel) pair inside an `n`-step block lands inside the block. */
  lemma SlotInBlock(t: nat, c: nat, width: nat, n: nat)
    requires t < n && c < width
    ensures Slot(t, c, width) < n * width
    ensures (n - 1) * width + width == n * width
  {
    assert t * width + width <= n * width by {
      assert (t + 1) * width == t * width + width;
      assert t + 1 <= n;
    }
  }

  /** One slot of the interleaving: channel `c`'s sample of time `t` sits at `t * C + c`. */
  lemma {:induction false} InterleaveSlot<T>(planes: seq<seq<T>>, n: nat, t: nat, c: nat)
    requires Covers(planes, n)
    requires t < n && c < |planes|
    ensures Slot(t, c, |planes|) < |Interleave(planes, n)|
    ensures Interleave(planes, n)[Slot(t, c, |planes|)] == planes[c][t]
    decreases n
  {
    var width := |planes|;
    var prefix := Interleave(planes, n - 1);
    var column := Column(planes, n - 1);
    assert Interleave(planes, n) == prefix + column;
    SlotInBlock(t, c, width, n);
    if t < n - 1 {
      SlotInBlock(t, c, width, n - 1);
      InterleaveSlot(planes, n - 1, t, c);
    } else {
      assert Slot(t, c, width) == |prefix| + c;
    }
  }

  /** Transpose law: the interleaving puts channel `c`'s sample of time `t` at slot `t * C + c`. */
  lemma TransposeLaw<T>(planes: seq<seq<T>>, n: nat)
    requires Covers(planes, n)
    ensures IsTransposeOf(Interleave(planes, n), planes, n)
  {
    var out := Interleave(planes, n);
    forall t, c | 0 <= t < n && 0 <= c < |planes|
      ensures Slot(t, c, |planes|) < |out| && out[Slot(t, c, |planes|)] == planes[c][t]
    {
      InterleaveSlot(planes, n, t, c);
    }
  }

  /** Each slot of an `n`-step block belongs to exactly one (time, channel) pair. */
  lemma SlotDecomposition(i: nat, width: nat, n: nat)
    requires i < width * n
    ensures width > 0
    ensures i / width < n && i % width < width
    ensures Slot(i / width, i % width, width) == i
  {
  }

  /**
   The transpose law determines the interleaving: any sequence satisfying it is the interleaving.
   Together with TransposeLaw this makes the law an exact characterisation.
   */
  lemma TransposeUnique<T>(out: seq<T>, planes: seq<seq<T>>, n: nat)
    requires Covers(planes, n)
    requires IsTransposeOf(out, planes, n)
    ensures out == Interleave(planes, n)
  {
    var ref := Interleave(planes, n);
    TransposeLaw(planes, n);
    var width := |planes|;
    forall i | 0 <= i < |out|
      ensures out[i] == ref[i]
    {
      SlotDecomposition(i, width, n);
      var t, c := i / width, i % width;
      assert out[Slot(t, c, width)] == planes[c][t] == ref[Slot(t, c, width)];
    }
  }

  /** The planes of an interleaved block: slot `t * C + c` read back as channel `c`, time `t`. */
  function Deinterleave<T>(out: seq<T>, width: nat, n: nat): (planes: seq<seq<T>>)
    requires |out| == width * n
    ensures |planes| == width && Covers(planes, n)
  {
    seq(width, c requires 0 <= c < width =>
      seq(n, t requires 0 <= t < n => (SlotInBlock(t, c, width, n); out[Slot(t, c, width)])))
  }

  /** De-interleaving undoes interleaving: the block of a frame gives back its planes. */
  lemma InterleaveRoundTrip<T>(planes: seq<seq<T>>, n: nat)
    requires forall c :: 0 <= c < |planes| ==> |planes[c]| == n
    ensures Deinterleave(Interleave(planes, n), |planes|, n) == planes
  {
    TransposeLaw(planes, n);
    var back := Deinterleave(Interleave(planes, n), |planes|, n);
    forall c | 0 <= c < |planes|
      ensures back[c] == planes[c]
    {
    }
  }

  /** Interleaving undoes de-interleaving: every block is the interleaving of its planes. */
  lemma DeinterleaveRoundTrip<T>(out: seq<T>, width: nat, n: nat)
    requires |out| == width * n
    ensures Interleave(Deinterleave(out, width, n), n) == out
  {
    var planes := Deinterleave(out, width, n);
    forall t, c | 0 <= t < n && 0 <= c < width
      ensures Slot(t, c, width) < |out| && out[Slot(t, c, width)] == planes[c][t]
    {
      SlotInBlock(t, c, width, n);
    }
    TransposeUnique(out, planes, n);
  }

  /** With a single channel the interleaving of `n` steps is the plane's first `n` samples. */
  lemma MonoIsCopy<T>(planes: seq<seq<T>>, n: nat)
    requires |planes| == 1 && n <= |planes[0]|
    ensures Interleave(planes, n) == planes[0][..n]
  {
    var out := planes[0][..n];
    forall t, c | 0 <= t < n && 0 <= c < 1
      ensures Slot(t, c, 1) < |out| && out[Slot(t, c, 1)] == planes[c][t]
    {
    }
    TransposeUnique(out, planes, n);
  }

  /**
   Loop form of the interleaving: for each time step, append every channel's sample in channel
   order. It computes exactly the interleaving, and so satisfies the transpose law.
   */
  method InterleaveFrame<T>(planes: seq<seq<T>>, n: nat) returns (out: seq<T>)
    requires Covers(planes, n)
    ensures out == Interleave(planes, n)
    ensures IsTransposeOf(out, planes, n)
  {
    out := [];
    var t := 0;
    while t < n
      invariant 0 <= t <= n
      invariant out == Interleave(planes, t)
    {
      var column := [];
      var c := 0;
      while c < |planes|
        invariant 0 <= c <= |planes|
        invariant column == Column(planes, t)[..c]
      {
        column := column + [planes[c][t]];
        c := c + 1;
      }
      out := out + column;
      t := t + 1;
    }
    TransposeLaw(planes, n);
  }

  /**
   Slice assignment `buf[p : p + |block|] = block` on a fixed-size buffer: the window receives the
   block, every other slot and the length stay as they were.
   */
  function WriteWindow<T>(buf: seq<T>, p: nat, block: seq<T>): (r: seq<T>)
    requires p + |block| <= |buf|
    ensures |r| == |buf|
    ensures r[p..p + |block|] == block
    ensures forall i :: 0 <= i < |buf| && !(p <= i < p + |block|) ==> r[i] == buf[i]
  {
    buf[..p] + block + buf[p + |block|..]
  }
}

=== FILE: samples.dfy ===
/**
 Fixed-width sample storage: the 16-bit signed sample type of the output buffer and the
 conversion of a sample buffer into its raw byte form (two bytes per sample, low byte first).
 */
module Samples {

  /** A 16-bit signed integer, the element type of the session's sample buffer. */
  newtype int16 = x: int | -0x8000 <= x < 0x8000

  /** An unsigned 8-bit value, the element type of the frozen output buffer. */
  type byte = x: int | 0 <= x < 0x100

  /** Width in bytes of one stored sample. */
  const BytesPerSample: nat := 2

  /** Two's-complement bit pattern of a sample, as an unsigned 16-bit value. */
  function Unsigned(x: int16): (u: nat)
    ensures u < 0x1_0000
    ensures (u - x as int) % 0x1_0000 == 0
  {
    if x < 0 then x as int + 0x1_0000 else x as int
  }

  /** The two bytes that represent one sample in memory, low byte first. */
  function SampleBytes(x: int16): (r: seq<byte>)
    ensures |r| == BytesPerSample
    ensures r[0] as int + 0x100 * r[1] as int == Unsigned(x)
  {
    var u := Unsigned(x);
    [u % 0x100, u / 0x100]
  }

  /** The sample that two bytes (low byte first) represent. */
  function SampleOf(lo: byte, hi: byte): (x: int16)
    ensures Unsigned(x) == lo as int + 0x100 * hi as int
  {
    var u := lo as int + 0x100 * hi as int;
    if u >= 0x8000 then (u - 0x1_0000) as int16 else u as int16
  }

  /** Reading back the bytes of a sample yields the sample. */
  lemma SampleRoundTrip(x: int16)
    ensures SampleOf(SampleBytes(x)[0], SampleBytes(x)[1]) == x
  {
  }

  /** Every pair of bytes is the representation of exactly one sample. */
  lemma BytesRoundTrip(lo: byte, hi: byte)
    ensures SampleBytes(SampleOf(lo, hi)) == [lo, hi]
  {
  }

  /** The raw byte form of a whole sample buffer: each sample's two bytes, in buffer order. */
  function ToBytes(xs: seq<int16>): (r: seq<byte>)
    ensures |r| == BytesPerSample * |xs|
    ensures forall i :: 0 <= i < |xs| ==> r[2 * i] == SampleBytes(xs[i])[0] && r[2 * i + 1] == SampleBytes(xs[i])[1]
  {
    if xs == [] then [] else SampleBytes(xs[0]) + ToBytes(xs[1..])
  }

  /** Reads a byte buffer back as consecutive samples, two bytes each. */
  function FromBytes(bs: seq<byte>): (r: seq<int16>)
    requires |bs| % 2 == 0
    ensures BytesPerSample * |r| == |bs|
    ensures forall i :: 0 <= i < |r| ==> r[i] == SampleOf(bs[2 * i], bs[2 * i + 1])
  {
    if bs == [] then [] else [SampleOf(bs[0], bs[1])] + FromBytes(bs[2..])
  }

  /** Freezing a buffer to bytes loses nothing: reading the bytes back gives the buffer. */
  lemma ToBytesRoundTrip(xs: seq<int16>)
    ensures FromBytes(ToBytes(xs)) == xs
  {
  }

  /** Conversely, every even-length byte buffer is the frozen form of the samples it reads as. */
  lemma {:induction false} FromBytesRoundTrip(bs: seq<byte>)
    requires |bs| % 2 == 0
    ensures ToBytes(FromBytes(bs)) == bs
  {
    if bs != [] {
      BytesRoundTrip(bs[0], bs[1]);
      FromBytesRoundTrip(bs[2..]);
      assert bs == [bs[0], bs[1]] + bs[2..];
    }
  }
}

=== FILE: session.dfy ===
/**
 The decode session of `FlacFile`: the state the three decoder callbacks share, each callback as a
 pure transition, and the driver that runs the open, metadata and stream phases in order.

 The decoder engine itself is not modelled: a run of it is an `Engine` value holding the status of
 opening the file, the callback events each pass delivers, and the status each pass reports.
 */
module FlacSession {
  import opened Wrappers
  import opened Samples
  import opened Interleaving

  /** The STREAMINFO fields the metadata handler reads (section 8.2 of RFC 9639). */
  datatype StreamInfo = StreamInfo(channels: nat, sampleRate: nat, totalSamples: nat)

  /** Stream geometry: channel count, sample rate in Hz, and samples per channel. */
  datatype Geometry = Geometry(channels: nat, frequency: nat, totalSamples: nat)

  /** The geometry together with the sample buffer allocated for it; the two are set at once. */
  datatype Allocation = Allocation(geometry: Geometry, samples: seq<int16>)

  /**
   Session state: the allocation (absent until the first metadata event) and the write cursor,
   the index of the next free slot of the sample buffer.
   */
  datatype Session = Session(alloc: Option<Allocation>, cursor: nat)

  /** A decoded frame: `blocksize` time steps, one plane of samples per channel. */
  datatype Frame = Frame(blocksize: nat, planes: seq<seq<int16>>)

  /** One callback invocation by the decoder engine. */
  datatype Event =
    | Metadata(info: StreamInfo)
    | FrameDecoded(frame: Frame)
    | DecodeError(status: int)

  /** Why a frame write raised: no buffer yet, or a window that does not fit the buffer. */
  datatype WriteFault = NoBuffer | WindowMismatch

  /** Everything that aborts a session. */
  datatype Failure =
    | OpenError(initStatus: int)
    | MetadataError
    | StreamError
    | DecodeFault(errorStatus: int)
    | WriteRejected(fault: WriteFault)
    | NoStreamInfo

  /** What the write callback hands back: its status for the engine and the new session. */
  datatype Written = Written(status: int, next: Session)

  /** The decoder engine's run: open status, both passes' events and both passes' results. */
  datatype Engine = Engine(
    initStatus: int,
    metadataEvents: seq<Event>,
    metadataOk: bool,
    streamEvents: seq<Event>,
    streamOk: bool)

  /** What a successful session exposes: geometry, the frozen byte buffer and its measures. */
  datatype Decoded = Decoded(
    channels: nat,
    frequency: nat,
    totalSamples: nat,
    buffer: seq<byte>,
    bufferLength: nat,
    bytesPerSample: nat)

  /** The write-callback status that tells the engine to continue decoding. */
  const WriteContinue: int := 0

  /** An engine-supplied frame: at least one plane, each holding `blocksize` samples. */
  predicate ValidFrame(f: Frame) {
    |f.planes| >= 1 && Covers(f.planes, f.blocksize)
  }

  predicate ValidEvent(e: Event) {
    e.FrameDecoded? ==> ValidFrame(e.frame)
  }

  predicate ValidEvents(events: seq<Event>) {
    forall i :: 0 <= i < |events| ==> ValidEvent(events[i])
  }

  /** Number of buffer slots a frame fills: one per (time step, channel) pair. */
  function FrameSize(f: Frame): nat {
    |f.planes| * f.blocksize
  }

  /** Total buffer slots the frames among `events` fill. */
  function SamplesIn(events: seq<Event>): nat {
    if events == [] then 0
    else (if events[0].FrameDecoded? then FrameSize(events[0].frame) else 0) + SamplesIn(events[1..])
  }

  /**
   The samples the frames among `events` contribute, in order: each frame's block as the write
   callback lays it out, one after the other.
   */
  function Blocks(events: seq<Event>): (r: seq<int16>)
    requires ValidEvents(events)
    ensures |r| == SamplesIn(events)
  {
    if events == [] then []
    else (if events[0].FrameDecoded? then FrameSamples(events[0].frame) else []) + Blocks(events[1..])
  }

  /** True if the engine reports a decode error somewhere in `events`. */
  predicate HasDecodeError(events: seq<Event>) {
    exists i :: 0 <= i < |events| && events[i].DecodeError?
  }

  /** The session before any callback: nothing allocated, cursor at 0. */
  function Initial(): Session {
    Session(None, 0)
  }

  /**
   The buffer counts as allocated only when it exists and is non-empty: an allocated buffer of
   length 0 is as falsy as no buffer at all.
   */
  predicate Allocated(s: Session) {
    s.alloc.Some? && |s.alloc.value.samples| > 0
  }

  /** Session invariant: the buffer is sized by its geometry and the cursor stays inside it. */
  predicate Valid(s: Session) {
    match s.alloc
    case None => s.cursor == 0
    case Some(a) =>
      && |a.samples| == a.geometry.totalSamples * a.geometry.channels
      && s.cursor <= |a.samples|
  }

  /**
   Metadata handler: while no non-empty buffer exists, take the geometry from the STREAMINFO
   record and allocate a zero-filled buffer of `totalSamples * channels` slots; otherwise do
   nothing. The cursor is left where it is.
   */
  function OnMetadata(s: Session, info: StreamInfo): (r: Session)
    ensures Allocated(s) ==> r == s
    ensures !Allocated(s) ==>
      && r.cursor == s.cursor
      && r.alloc.Some?
      && r.alloc.value.geometry == Geometry(info.channels, info.sampleRate, info.totalSamples)
      && |r.alloc.value.samples| == info.totalSamples * info.channels
      && forall i :: 0 <= i < |r.alloc.value.samples| ==> r.alloc.value.samples[i] == 0
  {
    if Allocated(s) then s
    else
      var geometry := Geometry(info.channels, info.sampleRate, info.totalSamples);
      Session(Some(Allocation(geometry, seq(info.totalSamples * info.channels, _ => 0))), s.cursor)
  }

  /**
   The block a frame contributes to the buffer: the interleaving of its planes when it has two
   or more channels, the single plane as it is otherwise. Either way it obeys the transpose law.
   */
  function FrameSamples(f: Frame): (r: seq<int16>)
    requires ValidFrame(f)
    ensures IsTransposeOf(r, f.planes, f.blocksize)
    ensures |f.planes| == 1 ==> |r| == f.blocksize && forall t :: 0 <= t < f.blocksize ==> r[t] == f.planes[0][t]
  {
    TransposeLaw(f.planes, f.blocksize);
    if |f.planes| >= 2 then Interleave(f.planes, f.blocksize)
    else
      MonoIsCopy(f.planes, f.blocksize);
      f.planes[0][..f.blocksize]
  }

  /**
   `next` is `s` after the block of `f` was written at the cursor: same geometry and buffer
   length, the window `[cursor, cursor + FrameSize(f))` holds the frame's samples in transposed
   order, every slot outside it is unchanged, and the cursor has moved past the window.
   */
  ghost predicate FrameWritten(s: Session, f: Frame, next: Session)
    requires ValidFrame(f)
  {
    && s.alloc.Some? && next.alloc.Some?
    && next.alloc.value.geometry == s.alloc.value.geometry
    && |next.alloc.value.samples| == |s.alloc.value.samples|
    && next.cursor == s.cursor + FrameSize(f)
    && next.cursor <= |next.alloc.value.samples|
    && IsTransposeOf(next.alloc.value.samples[s.cursor..next.cursor], f.planes, f.blocksize)
    && forall i :: 0 <= i < |s.alloc.value.samples| && !(s.cursor <= i < next.cursor) ==>
         next.alloc.value.samples[i] == s.alloc.value.samples[i]
  }

  /**
   Write callback: store the frame's block at the cursor by slice assignment and advance the
   cursor by the block's length, answering "continue". Without a buffer the store raises, and so
   does a window that would run past the end of the fixed-size buffer.
   */
  function OnFrame(s: Session, f: Frame): (r: Result<Written, WriteFault>)
    requires ValidFrame(f)
    ensures s.alloc.None? ==> r == Err(NoBuffer)
    ensures s.alloc.Some? ==> (r.Ok? <==> s.cursor + FrameSize(f) <= |s.alloc.value.samples|)
    ensures s.alloc.Some? && r.Err? ==> r.error == WindowMismatch
    ensures r.Ok? ==> r.value.status == WriteContinue && FrameWritten(s, f, r.value.next)
  {
    match s.alloc
    case None => Err(NoBuffer)
    case Some(a) =>
      var block := FrameSamples(f);
      if s.cursor + |block| > |a.samples| then Err(WindowMismatch)
      else
        var samples := WriteWindow(a.samples, s.cursor, block);
        Ok(Written(WriteContinue, Session(Some(a.(samples := samples)), s.cursor + |block|)))
  }

  /** Error callback: every reported decode error aborts the session with its status. */
  function OnError(status: int): Failure
  {
    DecodeFault(status)
  }

  /** One engine event applied to the session. */
  function Step(s: Session, e: Event): Result<Session, Failure>
    requires ValidEvent(e)
  {
    match e
    case Metadata(info) => Ok(OnMetadata(s, info))
    case FrameDecoded(f) =>
      (match OnFrame(s, f)
       case Ok(w) => Ok(w.next)
       case Err(fault) => Err(WriteRejected(fault)))
    case DecodeError(status) => Err(OnError(status))
  }

  /**
   The events of one decoder pass applied in order, stopping at the first failure. A pass that
   completes keeps the session invariant and moves the cursor by exactly the frames' sizes.
   */
  function Run(s: Session, events: seq<Event>): (r: Result<Session, Failure>)
    requires ValidEvents(events)
    ensures Valid(s) && r.Ok? ==> Valid(r.value)
    ensures r.Ok? ==> r.value.cursor == s.cursor + SamplesIn(events)
    ensures r.Err? ==> r.error.DecodeFault? || r.error.WriteRejected?
    decreases |events|
  {
    if events == [] then Ok(s)
    else
      match Step(s, events[0])
      case Err(f) => Err(f)
      case Ok(next) => Run(next, events[1..])
  }

  /** Final conversion of a complete session: the buffer frozen to bytes, with its measures. */
  function Freeze(a: Allocation): (d: Decoded)
    ensures d.bytesPerSample == BytesPerSample
    ensures d.bufferLength == |d.buffer| == BytesPerSample * |a.samples|
    ensures FromBytes(d.buffer) == a.samples
    ensures d.channels == a.geometry.channels && d.frequency == a.geometry.frequency
    ensures d.totalSamples == a.geometry.totalSamples
  {
    ToBytesRoundTrip(a.samples);
    var bytes := ToBytes(a.samples);
    Decoded(a.geometry.channels, a.geometry.frequency, a.geometry.totalSamples, bytes, |bytes|, BytesPerSample)
  }

  /**
   The session driver: open, then the metadata pass, then the stream pass, each checked before
   the next begins; only when all three succeed is the buffer frozen and returned.
   */
  function OpenFlac(e: Engine): (r: Result<Decoded, Failure>)
    requires ValidEvents(e.metadataEvents) && ValidEvents(e.streamEvents)
    ensures e.initStatus != 0 ==> r == Err(OpenError(e.initStatus))
    ensures e.initStatus == 0 && Run(Initial(), e.metadataEvents).Ok? && !e.metadataOk ==>
      r == Err(MetadataError)
    ensures
      && e.initStatus == 0 && e.metadataOk && !e.streamOk
      && Run(Initial(), e.metadataEvents).Ok?
      && Run(Run(Initial(), e.metadataEvents).value, e.streamEvents).Ok?
      ==> r == Err(StreamError)
    ensures r.Ok? ==> e.initStatus == 0 && e.metadataOk && e.streamOk
    ensures r.Ok? ==>
      && r.value.bytesPerSample == BytesPerSample
      && r.value.bufferLength == |r.value.buffer| == BytesPerSample * (r.value.totalSamples * r.value.channels)
  {
    if e.initStatus != 0 then Err(OpenError(e.initStatus))
    else
      match Run(Initial(), e.metadataEvents)
      case Err(f) => Err(f)
      case Ok(afterMetadata) =>
        if !e.metadataOk then Err(MetadataError)
        else
          match Run(afterMetadata, e.streamEvents)
          case Err(f) => Err(f)
          case Ok(afterStream) =>
            if !e.streamOk then Err(StreamError)
            else
              match afterStream.alloc
              case None => Err(NoStreamInfo)
              case Some(a) => Ok(Freeze(a))
  }

  /**
   Shape arithmetic of the array view: (`bufferLength / bytesPerSample / channels`, `channels`)
   with floor division; a zero divisor has no shape.
   */
  function ArrayShape(d: Decoded): (r: Option<(nat, nat)>)
    ensures r.None? <==> d.channels == 0 || d.bytesPerSample == 0
    ensures r.Some? ==> r.value.1 == d.channels && r.value.0 * d.channels * d.bytesPerSample <= d.bufferLength
    ensures r.Some? ==> d.bufferLength < (r.value.0 + 1) * d.channels * d.bytesPerSample
  {
    if d.channels == 0 || d.bytesPerSample == 0 then None
    else
      var perSample := d.bufferLength / d.bytesPerSample;
      var rows := perSample / d.channels;
      FloorDivBounds(d.bufferLength, d.bytesPerSample);
      FloorDivBounds(perSample, d.channels);
      NestedFloorBound(d.bufferLength, d.bytesPerSample, perSample, d.channels, rows);
      Some((rows, d.channels))
  }

  /** Floor division brackets its dividend: `(n / b) * b <= n < (n / b + 1) * b`. */
  lemma FloorDivBounds(n: nat, b: nat)
    requires b > 0
    ensures (n / b) * b <= n < (n / b + 1) * b
  {
  }

  /** Two floor divisions in a row bracket the dividend by the product of the divisors. */
  lemma NestedFloorBound(n: nat, b: nat, q: nat, c: nat, rows: nat)
    requires b > 0 && c > 0
    requires q * b <= n < (q + 1) * b
    requires rows * c <= q < (rows + 1) * c
    ensures rows * c * b <= n < (rows + 1) * c * b
  {
    assert rows * c * b <= q * b;
    assert (q + 1) * b <= (rows + 1) * c * b;
  }
}

=== FILE: session_properties.dfy ===
/**
 Properties of the decode session that relate several callbacks or whole runs: once-only
 allocation, the mono branch as a plain copy, cursor accounting over a pass, the ordering of the
 phases, and the geometry of the output.
 */
module SessionProperties {
  import opened Wrappers
  import opened Samples
  import opened Interleaving
  import opened FlacSession

  /** A metadata event after a non-empty buffer was ready changes nothing at all. */
  lemma SecondMetadataIgnored(s: Session, first: StreamInfo, second: StreamInfo)
    requires first.totalSamples * first.channels > 0
    ensures OnMetadata(OnMetadata(s, first), second) == OnMetadata(s, first)
  {
  }

  /**
   A first allocation of zero slots does not count as ready: the next metadata event
   replaces geometry and buffer as if the first had never arrived.
   */
  lemma EmptyAllocationReplaced(s: Session, first: StreamInfo, second: StreamInfo)
    requires !Allocated(s)
    requires first.totalSamples * first.channels == 0
    ensures !Allocated(OnMetadata(s, first))
    ensures OnMetadata(OnMetadata(s, first), second) == OnMetadata(s, second)
  {
  }

  /** A single-channel frame is copied verbatim at the cursor, which advances by the blocksize. */
  lemma MonoFrameCopies(s: Session, f: Frame)
    requires ValidFrame(f) && |f.planes| == 1
    requires OnFrame(s, f).Ok?
    ensures OnFrame(s, f).value.next.cursor == s.cursor + f.blocksize
    ensures forall t :: 0 <= t < f.blocksize ==>
      s.cursor + t < |OnFrame(s, f).value.next.alloc.value.samples| &&
      OnFrame(s, f).value.next.alloc.value.samples[s.cursor + t] == f.planes[0][t]
  {
    var next := OnFrame(s, f).value.next;
    var window := next.alloc.value.samples[s.cursor..next.cursor];
    forall t | 0 <= t < f.blocksize
      ensures s.cursor + t < |next.alloc.value.samples| && next.alloc.value.samples[s.cursor + t] == f.planes[0][t]
    {
      assert window[Slot(t, 0, 1)] == f.planes[0][t];
    }
  }

  /** A decode error anywhere in a pass aborts that pass, whatever precedes it. */
  lemma {:induction false} DecodeErrorAbortsPass(s: Session, events: seq<Event>)
    requires ValidEvents(events)
    requires HasDecodeError(events)
    ensures Run(s, events).Err?
    decreases |events|
  {
    if !events[0].DecodeError? {
      match Step(s, events[0])
      case Err(_) =>
      case Ok(next) =>
        var i :| 0 <= i < |events| && events[i].DecodeError?;
        assert events[1..][i - 1].DecodeError?;
        DecodeErrorAbortsPass(next, events[1..]);
    }
  }

  /**
   Running a pass in two parts is running it whole: the second part starts where the first left
   off, and a failure in the first part ends the pass with that failure.
   */
  lemma {:induction false} RunAppend(s: Session, a: seq<Event>, b: seq<Event>)
    requires ValidEvents(a) && ValidEvents(b)
    ensures ValidEvents(a + b)
    ensures Run(s, a + b) == match Run(s, a) case Ok(m) => Run(m, b) case Err(f) => Err(f)
    decreases |a|
  {
    if a == [] {
      assert a + b == b;
    } else {
      assert (a + b)[0] == a[0];
      assert (a + b)[1..] == a[1..] + b;
      match Step(s, a[0])
      case Err(_) =>
      case Ok(next) => RunAppend(next, a[1..], b);
    }
  }

  /**
   A decode error ends the pass with a fault carrying the status the engine reported, once the
   events before it have gone through.
   */
  lemma DecodeErrorCarriesStatus(s: Session, a: seq<Event>, status: int, b: seq<Event>)
    requires ValidEvents(a) && ValidEvents(b)
    requires Run(s, a).Ok?
    ensures ValidEvents(a + [DecodeError(status)] + b)
    ensures Run(s, a + [DecodeError(status)] + b) == Err(DecodeFault(status))
  {
    var rest := [DecodeError(status)] + b;
    assert ValidEvents(rest);
    RunAppend(s, a, rest);
    assert a + [DecodeError(status)] + b == a + rest;
    assert rest[0] == DecodeError(status);
  }

  /** A successful write splices the frame's block into the buffer at the cursor. */
  lemma FrameSplice(s: Session, f: Frame)
    requires ValidFrame(f) && OnFrame(s, f).Ok?
    ensures
      var before := s.alloc.value.samples;
      OnFrame(s, f).value.next.alloc.value.samples ==
        before[..s.cursor] + FrameSamples(f) + before[s.cursor + FrameSize(f)..]
  {
    WrittenIsSplice(s, f, OnFrame(s, f).value.next);
  }

  /** The state a frame write leaves behind is the old buffer with the frame's block spliced in. */
  lemma WrittenIsSplice(s: Session, f: Frame, next: Session)
    requires ValidFrame(f) && FrameWritten(s, f, next)
    ensures
      var before := s.alloc.value.samples;
      next.alloc.value.samples == before[..s.cursor] + FrameSamples(f) + before[s.cursor + FrameSize(f)..]
  {
    var before, after := s.alloc.value.samples, next.alloc.value.samples;
    var c, k := s.cursor, FrameSize(f);
    var window := after[c..c + k];
    TransposeUnique(window, f.planes, f.blocksize);
    TransposeUnique(FrameSamples(f), f.planes, f.blocksize);
    assert after[..c] == before[..c];
    assert after[c + k..] == before[c + k..];
    assert after == after[..c] + window + after[c + k..];
  }

  /**
   Two adjacent splices into a buffer are one splice of the two blocks joined: the frame's block
   `x` of length `k` at the cursor `c`, then the blocks `y` of length `m` of the rest of the pass
   at `d == c + k`.
   */
  lemma SpliceTwice(before: seq<int16>, mid: seq<int16>, after: seq<int16>, c: nat, d: nat, k: nat, m: nat,
                    x: seq<int16>, y: seq<int16>, joined: seq<int16>, total: nat)
    requires |x| == k && |y| == m && d == c + k && total == k + m && c + total <= |before|
    requires joined == x + y
    requires mid == before[..c] + x + before[d..]
    requires after == mid[..d] + y + mid[d + m..]
    ensures after == before[..c] + joined + before[c + total..]
  {
    assert mid[..d] == before[..c] + x;
    assert mid[d + m..] == before[c + total..];
  }

  /** A metadata event on a non-empty buffer is skipped: the pass goes on with the same session. */
  lemma MetadataHead(s: Session, events: seq<Event>)
    requires ValidEvents(events) && |events| > 0 && events[0].Metadata? && Allocated(s)
    ensures Run(s, events) == Run(s, events[1..])
    ensures Blocks(events) == Blocks(events[1..]) && SamplesIn(events) == SamplesIn(events[1..])
  {
  }

  /**
   A frame event that fits is written: the step yields the state `next`, which holds the old
   buffer with the frame's block spliced in at the cursor and the cursor moved past it. The
   frame's block goes first among the pass's blocks and its size first among its samples.
   */
  lemma FrameHead(s: Session, events: seq<Event>) returns (next: Session)
    requires ValidEvents(events) && |events| > 0 && events[0].FrameDecoded?
    requires s.alloc.Some? && s.cursor + FrameSize(events[0].frame) <= |s.alloc.value.samples|
    ensures Step(s, events[0]) == Ok(next)
    ensures Spliced(s, events[0].frame, next)
    ensures Blocks(events) == FrameSamples(events[0].frame) + Blocks(events[1..])
    ensures SamplesIn(events) == FrameSize(events[0].frame) + SamplesIn(events[1..])
  {
    next := OnFrame(s, events[0].frame).value.next;
    FrameSplice(s, events[0].frame);
  }

  /**
   `next` is `s` with the block of `f` spliced in at the cursor: same geometry and buffer length,
   and the cursor moved past the block.
   */
  predicate Spliced(s: Session, f: Frame, next: Session)
    requires ValidFrame(f)
  {
    && s.alloc.Some? && next.alloc.Some?
    && next.alloc.value.geometry == s.alloc.value.geometry
    && |next.alloc.value.samples| == |s.alloc.value.samples|
    && next.cursor == s.cursor + FrameSize(f)
    && |FrameSamples(f)| == FrameSize(f)
    && next.cursor <= |s.alloc.value.samples|
    && next.alloc.value.samples ==
         s.alloc.value.samples[..s.cursor] + FrameSamples(f) + s.alloc.value.samples[next.cursor..]
  }

  /** Dropping the first event keeps a pass free of decode errors. */
  lemma NoDecodeErrorInRest(events: seq<Event>)
    requires |events| > 0 && !HasDecodeError(events)
    ensures !HasDecodeError(events[1..])
  {
    forall i | 0 <= i < |events[1..]|
      ensures !events[1..][i].DecodeError?
    {
      assert events[1..][i] == events[i + 1];
    }
  }

  /**
   A pass over a non-empty buffer whose events hold no decode error and whose frames fit from the
   cursor completes, keeps the geometry, and leaves the frames' blocks one after the other at the
   old cursor, every other slot unchanged. Further metadata events change nothing.
   */
  lemma {:induction false} RunWritesBlocks(s: Session, events: seq<Event>)
    requires ValidEvents(events)
    requires Allocated(s) && !HasDecodeError(events)
    requires s.cursor + SamplesIn(events) <= |s.alloc.value.samples|
    ensures Run(s, events).Ok?
    ensures Run(s, events).value.alloc.Some?
    ensures Run(s, events).value.alloc.value.geometry == s.alloc.value.geometry
    ensures Run(s, events).value.alloc.value.samples ==
      s.alloc.value.samples[..s.cursor] + Blocks(events) + s.alloc.value.samples[s.cursor + SamplesIn(events)..]
    decreases |events|, 1
  {
    if events == [] {
      var before := s.alloc.value.samples;
      assert before[..s.cursor] + [] + before[s.cursor..] == before;
    } else if events[0].Metadata? {
      MetadataStep(s, events);
    } else {
      var next := FrameHead(s, events);
      FrameStep(s, events, next);
    }
  }

  /** The metadata case of `RunWritesBlocks`: the event is skipped and the rest of the pass runs. */
  lemma {:induction false} MetadataStep(s: Session, events: seq<Event>)
    requires ValidEvents(events) && |events| > 0 && events[0].Metadata?
    requires Allocated(s) && !HasDecodeError(events)
    requires s.cursor + SamplesIn(events) <= |s.alloc.value.samples|
    ensures Run(s, events).Ok?
    ensures Run(s, events).value.alloc.Some?
    ensures Run(s, events).value.alloc.value.geometry == s.alloc.value.geometry
    ensures Run(s, events).value.alloc.value.samples ==
      s.alloc.value.samples[..s.cursor] + Blocks(events) + s.alloc.value.samples[s.cursor + SamplesIn(events)..]
    decreases |events|, 0
  {
    NoDecodeErrorInRest(events);
    MetadataHead(s, events);
    RunWritesBlocks(s, events[1..]);
  }

  /**
   The frame case of `RunWritesBlocks`: from the state `next` the frame's write left, the rest of
   the pass completes and leaves all of the pass's blocks spliced in at the old cursor.
   */
  lemma {:induction false} FrameStep(s: Session, events: seq<Event>, next: Session)
    requires ValidEvents(events) && |events| > 0 && events[0].FrameDecoded?
    requires Allocated(s) && !HasDecodeError(events)
    requires s.cursor + SamplesIn(events) <= |s.alloc.value.samples|
    requires Spliced(s, events[0].frame, next)
    requires Blocks(events) == FrameSamples(events[0].frame) + Blocks(events[1..])
    requires SamplesIn(events) == FrameSize(events[0].frame) + SamplesIn(events[1..])
    ensures Run(next, events[1..]).Ok?
    ensures Run(next, events[1..]).value.alloc.Some?
    ensures Run(next, events[1..]).value.alloc.value.geometry == s.alloc.value.geometry
    ensures Run(next, events[1..]).value.alloc.value.samples ==
      s.alloc.value.samples[..s.cursor] + Blocks(events) + s.alloc.value.samples[s.cursor + SamplesIn(events)..]
    decreases |events|, 0
  {
    NoDecodeErrorInRest(events);
    RunWritesBlocks(next, events[1..]);
    SpliceTwice(s.alloc.value.samples, next.alloc.value.samples, Run(next, events[1..]).value.alloc.value.samples,
                s.cursor, next.cursor, FrameSize(events[0].frame), SamplesIn(events[1..]),
                FrameSamples(events[0].frame), Blocks(events[1..]), Blocks(events), SamplesIn(events));
  }

  /**
   Cursor accounting from the start of a session: after a completed pass the cursor equals the
   total size of the frames written and still lies inside the buffer.
   */
  lemma CursorAccounting(events: seq<Event>)
    requires ValidEvents(events)
    requires Run(Initial(), events).Ok?
    ensures Run(Initial(), events).value.cursor == SamplesIn(events)
    ensures Valid(Run(Initial(), events).value)
  {
  }

  /** The cursor never moves backwards across a pass. */
  lemma CursorMonotone(s: Session, events: seq<Event>)
    requires ValidEvents(events)
    requires Run(s, events).Ok?
    ensures s.cursor <= Run(s, events).value.cursor
  {
  }

  /**
   When the frames of both passes carry exactly as many samples as the stream declared, the
   final cursor sits at the end of the buffer: no under-fill and no over-fill.
   */
  lemma ExactFill(e: Engine)
    requires ValidEvents(e.metadataEvents) && ValidEvents(e.streamEvents)
    requires Run(Initial(), e.metadataEvents).Ok?
    requires Run(Run(Initial(), e.metadataEvents).value, e.streamEvents).Ok?
    requires Run(Run(Initial(), e.metadataEvents).value, e.streamEvents).value.alloc.Some?
    requires SamplesIn(e.metadataEvents) + SamplesIn(e.streamEvents) ==
      |Run(Run(Initial(), e.metadataEvents).value, e.streamEvents).value.alloc.value.samples|
    ensures Run(Run(Initial(), e.metadataEvents).value, e.streamEvents).value.cursor ==
      |Run(Run(Initial(), e.metadataEvents).value, e.streamEvents).value.alloc.value.samples|
  {
  }

  /** A failed open decides the outcome before any event of either pass is looked at. */
  lemma OpenFailureSkipsPasses(e: Engine, other: Engine)
    requires ValidEvents(e.metadataEvents) && ValidEvents(e.streamEvents)
    requires ValidEvents(other.metadataEvents) && ValidEvents(other.streamEvents)
    requires e.initStatus != 0 && other.initStatus == e.initStatus
    ensures OpenFlac(e) == OpenFlac(other) == Err(OpenError(e.initStatus))
  {
  }

  /** A failed metadata pass aborts the session before the stream pass: its events do not matter. */
  lemma MetadataFailureSkipsStream(e: Engine, streamEvents: seq<Event>, streamOk: bool)
    requires ValidEvents(e.metadataEvents) && ValidEvents(e.streamEvents) && ValidEvents(streamEvents)
    requires e.initStatus == 0 && !e.metadataOk
    ensures OpenFlac(e).Err?
    ensures OpenFlac(e) == OpenFlac(e.(streamEvents := streamEvents, streamOk := streamOk))
  {
  }

  /** A failed stream pass never yields a buffer, however much of it was filled. */
  lemma StreamFailureDiscardsBuffer(e: Engine)
    requires ValidEvents(e.metadataEvents) && ValidEvents(e.streamEvents)
    requires !e.streamOk
    ensures OpenFlac(e).Err?
  {
  }

  /** A decode error in either pass means the session fails. */
  lemma DecodeErrorAbortsSession(e: Engine)
    requires ValidEvents(e.metadataEvents) && ValidEvents(e.streamEvents)
    requires HasDecodeError(e.metadataEvents) || HasDecodeError(e.streamEvents)
    ensures OpenFlac(e).Err?
  {
    if e.initStatus == 0 {
      if HasDecodeError(e.metadataEvents) {
        DecodeErrorAbortsPass(Initial(), e.metadataEvents);
      } else if Run(Initial(), e.metadataEvents).Ok? {
        DecodeErrorAbortsPass(Run(Initial(), e.metadataEvents).value, e.streamEvents);
      }
    }
  }

  /**
   A decode error in the metadata pass, after an open that succeeded and events that went
   through, ends the session with a fault carrying the reported status.
   */
  lemma MetadataDecodeErrorStatus(e: Engine, a: seq<Event>, status: int, b: seq<Event>)
    requires ValidEvents(e.metadataEvents) && ValidEvents(e.streamEvents)
    requires ValidEvents(a) && ValidEvents(b)
    requires e.initStatus == 0 && e.metadataEvents == a + [DecodeError(status)] + b
    requires Run(Initial(), a).Ok?
    ensures OpenFlac(e) == Err(DecodeFault(status))
  {
    DecodeErrorCarriesStatus(Initial(), a, status, b);
  }

  /**
   A decode error in the stream pass, after open and metadata pass succeeded and the stream
   events before it went through, ends the session with a fault carrying the reported status.
   */
  lemma StreamDecodeErrorStatus(e: Engine, a: seq<Event>, status: int, b: seq<Event>)
    requires ValidEvents(e.metadataEvents) && ValidEvents(e.streamEvents)
    requires ValidEvents(a) && ValidEvents(b)
    requires e.initStatus == 0 && e.metadataOk && Run(Initial(), e.metadataEvents).Ok?
    requires e.streamEvents == a + [DecodeError(status)] + b
    requires Run(Run(Initial(), e.metadataEvents).value, a).Ok?
    ensures OpenFlac(e) == Err(DecodeFault(status))
  {
    DecodeErrorCarriesStatus(Run(Initial(), e.metadataEvents).value, a, status, b);
  }

  /**
   A successful session is exactly the frozen state after both passes: every phase succeeded and
   the byte buffer reads back as the final sample buffer, which is sized by the final geometry.
   */
  lemma SuccessIsFrozenFinalState(e: Engine)
    requires ValidEvents(e.metadataEvents) && ValidEvents(e.streamEvents)
    requires OpenFlac(e).Ok?
    ensures Run(Initial(), e.metadataEvents).Ok?
    ensures Run(Run(Initial(), e.metadataEvents).value, e.streamEvents).Ok?
    ensures
      var final := Run(Run(Initial(), e.metadataEvents).value, e.streamEvents).value;
      && final.alloc.Some?
      && FromBytes(OpenFlac(e).value.buffer) == final.alloc.value.samples
      && |final.alloc.value.samples| == OpenFlac(e).value.totalSamples * OpenFlac(e).value.channels
  {
  }

  /**
   Conversely, when the open status is 0, both passes report success, neither pass raised and a
   buffer exists at the end, the session returns exactly that final buffer, frozen.
   */
  lemma SuccessConverse(e: Engine)
    requires ValidEvents(e.metadataEvents) && ValidEvents(e.streamEvents)
    requires e.initStatus == 0 && e.metadataOk && e.streamOk
    requires Run(Initial(), e.metadataEvents).Ok?
    requires Run(Run(Initial(), e.metadataEvents).value, e.streamEvents).Ok?
    requires Run(Run(Initial(), e.metadataEvents).value, e.streamEvents).value.alloc.Some?
    ensures OpenFlac(e) ==
      Ok(Freeze(Run(Run(Initial(), e.metadataEvents).value, e.streamEvents).value.alloc.value))
  {
  }

  /**
   Nothing checks that the frames fill the buffer: a stream whose STREAMINFO declares samples but
   which delivers no frame still succeeds, with an all-zero buffer of the declared size.
   */
  lemma UnderfilledSucceeds(e: Engine, info: StreamInfo)
    requires e == Engine(0, [Metadata(info)], true, [], true)
    ensures OpenFlac(e) == Ok(Freeze(Allocation(
      Geometry(info.channels, info.sampleRate, info.totalSamples),
      seq(info.totalSamples * info.channels, _ => 0))))
  {
    SingleEventPass(Initial(), Metadata(info));
  }

  /** Floor division undoes multiplication by a positive factor. */
  lemma MulDivCancel(a: nat, b: nat)
    requires b > 0
    ensures (a * b) / b == a
  {
    var q := (a * b) / b;
    var r := (a * b) % b;
    assert q * b + r == a * b;
    assert (a - q) * b == r;
    ProductBelowFactor(a - q, b, r);
  }

  /** The only multiple of a positive `b` lying in `[0, b)` is zero. */
  lemma ProductBelowFactor(k: int, b: nat, r: int)
    requires b > 0 && 0 <= r < b && k * b == r
    ensures k == 0
  {
  }

  /** The array view of a successful session has shape (samples per channel, channels). */
  lemma OutputShape(e: Engine)
    requires ValidEvents(e.metadataEvents) && ValidEvents(e.streamEvents)
    requires OpenFlac(e).Ok? && OpenFlac(e).value.channels > 0
    ensures ArrayShape(OpenFlac(e).value) == Some((OpenFlac(e).value.totalSamples, OpenFlac(e).value.channels))
  {
    var d := OpenFlac(e).value;
    var cells := d.totalSamples * d.channels;
    MulDivCancel(cells, BytesPerSample);
    assert d.bufferLength / d.bytesPerSample == cells;
    MulDivCancel(d.totalSamples, d.channels);
  }

  /** A stream declaring zero samples still succeeds, with an empty buffer and its geometry. */
  lemma EmptyStream(info: StreamInfo)
    requires info.totalSamples == 0
    ensures OpenFlac(Engine(0, [Metadata(info)], true, [], true)) ==
      Ok(Decoded(info.channels, info.sampleRate, 0, [], 0, BytesPerSample))
  {
    var ready := OnMetadata(Initial(), info);
    assert Run(Initial(), [Metadata(info)]) == Run(ready, []) == Ok(ready);
    assert ready.alloc.value.samples == [];
  }

  /** The interleaved block of a two-channel, four-sample frame. */
  lemma StereoBlock(frame: Frame, left: seq<int16>, right: seq<int16>)
    requires |left| == 4 && |right| == 4
    requires frame == Frame(4, [left, right])
    ensures FrameSamples(frame) ==
      [left[0], right[0], left[1], right[1], left[2], right[2], left[3], right[3]]
  {
    var planes := frame.planes;
    assert Interleave(planes, 1) == [left[0], right[0]] by {
      assert Column(planes, 0) == [left[0], right[0]];
    }
    assert Interleave(planes, 2) == [left[0], right[0], left[1], right[1]] by {
      assert Column(planes, 1) == [left[1], right[1]];
    }
    assert Interleave(planes, 3) == [left[0], right[0], left[1], right[1], left[2], right[2]] by {
      assert Column(planes, 2) == [left[2], right[2]];
    }
    assert Column(planes, 3) == [left[3], right[3]];
  }

  /** A pass made of one event is that event's step. */
  lemma SingleEventPass(s: Session, ev: Event)
    requires ValidEvent(ev)
    ensures Run(s, [ev]) == Step(s, ev)
  {
    assert [ev][1..] == [];
  }

  /** A frame that exactly fills a buffer from cursor 0 replaces the buffer's contents by its block. */
  lemma FillingWrite(s: Session, f: Frame)
    requires ValidFrame(f)
    requires s.alloc.Some? && s.cursor == 0 && FrameSize(f) == |s.alloc.value.samples|
    ensures OnFrame(s, f).Ok?
    ensures OnFrame(s, f).value.next == Session(Some(s.alloc.value.(samples := FrameSamples(f))), FrameSize(f))
  {
    var next := OnFrame(s, f).value.next;
    assert next.alloc.value.samples == FrameSamples(f) by {
      assert next.alloc.value.samples[0..FrameSize(f)] == FrameSamples(f);
    }
  }

  /**
   A session whose metadata pass delivers one STREAMINFO record and whose stream pass delivers one
   frame that exactly fills the declared buffer returns that frame's block as the whole output.
   */
  lemma SingleFrameSession(e: Engine, info: StreamInfo, f: Frame)
    requires ValidFrame(f)
    requires FrameSize(f) == info.totalSamples * info.channels
    requires e == Engine(0, [Metadata(info)], true, [FrameDecoded(f)], true)
    ensures OpenFlac(e) == Ok(Freeze(Allocation(
      Geometry(info.channels, info.sampleRate, info.totalSamples), FrameSamples(f))))
  {
    var ready := OnMetadata(Initial(), info);
    SingleEventPass(Initial(), Metadata(info));
    FillingWrite(ready, f);
    SingleEventPass(ready, FrameDecoded(f));
  }

  /**
   One STREAMINFO record followed by any number of frames that together fill the declared buffer
   exactly gives the frames' blocks, one after the other, as the whole output.
   */
  lemma WholeStreamSession(e: Engine, info: StreamInfo)
    requires ValidEvents(e.streamEvents) && !HasDecodeError(e.streamEvents)
    requires info.totalSamples * info.channels > 0
    requires SamplesIn(e.streamEvents) == info.totalSamples * info.channels
    requires e == Engine(0, [Metadata(info)], true, e.streamEvents, true)
    ensures OpenFlac(e) == Ok(Freeze(Allocation(
      Geometry(info.channels, info.sampleRate, info.totalSamples), Blocks(e.streamEvents))))
  {
    var ready := OnMetadata(Initial(), info);
    SingleEventPass(Initial(), Metadata(info));
    RunWritesBlocks(ready, e.streamEvents);
    var zeros := ready.alloc.value.samples;
    assert zeros[..0] + Blocks(e.streamEvents) + zeros[|zeros|..] == Blocks(e.streamEvents);
  }

  /**
   Two channels of four samples come out time-major: left, right, left, right, ... For example
   planes [1, 2, 3, 4] and [10, 20, 30, 40] give [1, 10, 2, 20, 3, 30, 4, 40].
   */
  lemma StereoScenario(e: Engine, rate: nat, left: seq<int16>, right: seq<int16>)
    requires |left| == 4 && |right| == 4
    requires e == Engine(0, [Metadata(StreamInfo(2, rate, 4))], true,
                         [FrameDecoded(Frame(4, [left, right]))], true)
    ensures OpenFlac(e) == Ok(Freeze(Allocation(Geometry(2, rate, 4),
      [left[0], right[0], left[1], right[1], left[2], right[2], left[3], right[3]])))
  {
    var frame := Frame(4, [left, right]);
    SingleFrameSession(e, StreamInfo(2, rate, 4), frame);
    StereoBlock(frame, left, right);
  }

  /** One channel of three samples comes out unchanged: for example [5, 6, 7] gives [5, 6, 7]. */
  lemma MonoScenario(e: Engine, rate: nat, plane: seq<int16>)
    requires |plane| == 3
    requires e == Engine(0, [Metadata(StreamInfo(1, rate, 3))], true, [FrameDecoded(Frame(3, [plane]))], true)
    ensures OpenFlac(e) == Ok(Freeze(Allocation(Geometry(1, rate, 3), plane)))
  {
    var frame := Frame(3, [plane]);
    SingleFrameSession(e, StreamInfo(1, rate, 3), frame);
    assert FrameSamples(frame) == plane;
  }
}

=== FILE: wrappers.dfy ===
/** Failure-carrying result types shared by the decode-session model. */
module Wrappers {

  /** A value that may be absent, used for the session fields that start out as `None`. */
  datatype Option<+T> = None | Some(value: T)

  /** Either a value or the failure that stopped the computation producing it. */
  datatype Result<+T, +E> = Ok(value: T) | Err(error: E)
}
